=== FILE: README.md ===
# Reddit MCP server: a Dafny model of its tool bodies and JSON-RPC endpoint

The server exposes three read-only Reddit queries as tools: `get_subreddit_posts`,
`search_reddit` and `get_user_posts`. It serves them through a JSON-RPC endpoint that
answers `initialize`, `tools/list` and `tools/call`. This project models the two parts
of `src/server.py` that hold logic, as pure functions over immutable values:

- **The fetcher body** (`fetch.dfy`, `tools.dfy`, `limit.dfy`, `normalize.dfy`). The
  source repeats it six times; it is modelled once, parameterised by the tool kind
  (`Tools.Tool`). The steps are: clamp `limit` into [1, 25], build the upstream
  request from the primary argument, the limit and the `sort` token, normalise every
  child of the listing into a 12-key post record, and turn every failure into an
  `{"error": ...}` dict.
- **The dispatcher** `mcp_endpoint` (`dispatch.dfy`, `registry.dfy`). It maps a
  request dict to a response: fixed server information, the static three-tool
  registry, a routed tool call wrapped in one text block, -32601 for an unknown tool
  or method, and -32603 with HTTP status 500 for any exception that escapes. Every
  response echoes the request's `id`.

Everything the code reads is decoded JSON, so one datatype, `Json.Json`, stands for
all Python values. Objects are ordered member lists; a lookup finds the last binding
of a key, as Python's json module does when it builds a dict. The Python behaviour
the code depends on lives in `pyruntime.dfy`: `str()` as used by f-strings, `dict.get`,
`for` iteration, and the exceptions these raise on a value of the wrong type, with
their CPython messages. As a result the model covers the inputs the source does not
type-check. A string `limit` makes the clamp raise, which becomes "Unexpected error:
...". A `children` value that is a string or a dict is iterated. In a `tools/call`
request, a `params` value that is not a dict makes the endpoint answer -32603.

Two things are parameters rather than code:
- `respond: HttpGet -> Upstream` stands for the `httpx.get` call, `raise_for_status`
  and `response.json()`. The fetcher hands it the request it built. It answers with
  a decoded body, a request-error message, or the message of any other exception.
- `dumps: Json -> string` stands for `json.dumps(..., indent=2)`, which produces the
  text of a tool result.

Behaviour a reader might not expect:
- a post without an author gets the empty string as its author;
- `sort` is sent upstream verbatim; an unknown token is not replaced by the tool's
  default;
- the permalink prefix is `https://reddit.com`, not the API base
  `https://www.reddit.com`;
- a post record has exactly twelve fields (title through over_18), and every request is an
  anonymous GET carrying only the fixed User-Agent header.

## Model

| member | source | states |
|---|---|---|
| `Json.LookupSpec` | src/server.py:39 | Reading a key from a decoded dict finds nothing exactly when no member has that key. Otherwise it finds the value of the last member with the key, because the last binding wins when JSON is decoded into a dict. |
| `PyRuntime.DictGet` | src/server.py:38-39 | `v.get(k, d)` succeeds exactly on dicts. It returns the bound value when the key is present and the default otherwise. Any other value raises AttributeError naming its type. |
| `PyRuntime.Iterate` | src/server.py:38 | A `for` loop visits a list's elements, a dict's distinct keys, or a string's one-character strings. Any other value raises TypeError "not iterable". |
| `Json.KeysInFirstOccurrenceOrder` | src/server.py:38 | Iterating a dict yields its keys in the order of their first occurrence in the decoded document. |
| `PyRuntime.Str` | src/server.py:47 | f-string interpolation prints a string as itself. An int prints as decimal text that reads back to the same int. |
| `PyRuntime.DecimalRoundTrip` | src/server.py:27 | The decimal text of the interpolated limit parses back to the limit, so the URL carries the exact count. |
| `Limit.Clamp` | src/server.py:24 | `min(max(n, 1), 25)` always lies in [1, 25]. It equals `n` when `n` is already in range, 1 below the range and 25 above it. |
| `Limit.ClampLimit` | src/server.py:24 | On any value: it succeeds exactly for bool/int/float and then lies numerically in [1, 25]. An in-range value is returned unchanged. An int gives `Clamp`. Any other type raises `'>' not supported between instances of 'int' and '<type>'`. |
| `Limit.ClampIdempotent` | src/server.py:24 | Clamping an already clamped limit changes nothing. |
| `Tools.FromName` | src/server.py:441-447 | A tool is selected only by a string equal to its name. A name equal to no tool's name selects nothing. |
| `Tools.BuildRequest` | src/server.py:27 | Every request carries the fixed User-Agent and timeout. Only the search tool sends query parameters, and read as a dict they map `q`, `limit` and `sort` to the arguments as given (lines 68-73); the other two tools interpolate theirs into the URL (lines 27 and 114, stated by `Fetchers.RequestedUrls`). |
| `Tools.RoutingInvertsNames` | src/server.py:441-447 | Routing inverts naming: a tool's name selects that tool, and only the three names select a tool. |
| `Tools.SortPassedVerbatim` | src/server.py:27 | For every tool, two different sort strings give two different upstream requests, so no token is replaced by a default. The same holds for lines 72 and 114. |
| `Tools.LimitRecoverable` | src/server.py:114 | For every tool, two different clamped integer limits give two different requests. The same holds for lines 27 and 71. |
| `Tools.RequestEnvelope` | src/server.py:29-33 | Every request goes to `https://www.reddit.com` with User-Agent `Reddit-MCP-Server/1.0` and a 10-second timeout. |
| `Tools.UrlsOnApiHost` | src/server.py:27 | Whatever the interpolated subreddit, user, sort and limit texts, the subreddit URL (line 27) and the user URL (line 114) start with the API base `https://www.reddit.com`. |
| `Normalize.Permalink` | src/server.py:47 | The permalink always starts with `https://reddit.com`. It is the prefix plus the raw relative path when that is a string, and the prefix alone when the raw post has none. |
| `Normalize.NormalizePost` | src/server.py:40-53 | The output record has the 12 keys title … over_18 in that order, and its permalink entry is the prefixed relative path. |
| `Normalize.NormalizedPostValues` | src/server.py:41-52 | Every field but the permalink holds the raw post's value when present, else its default: `""` for text (author included), `0` for numbers, `False` for flags. |
| `Normalize.NormalizedPostFields` | src/server.py:40-53 | Read as a dict, an output post has exactly the 12 keys, and looking up any of them but the permalink gives the raw-or-default value. |
| `Normalize.PermalinkOnlyFromPath` | src/server.py:47 | Two raw posts whose `permalink` entries agree (both absent, or the same value of any type) get the same permalink, whatever their `url`. A string path reads back from the result after the prefix. |
| `Normalize.MissingAuthorIsEmpty` | src/server.py:42 | A post without an author gets `""`, not a placeholder. |
| `Normalize.NormalizeItem` | src/server.py:39-53 | A child is normalised exactly when it is a dict whose `data` (default `{}`) is a dict. A child that is not a dict raises AttributeError. |
| `Normalize.NormalizeAll` | src/server.py:37-53 | The loop succeeds exactly when every child normalises. The result then has one record per child, in the same order. Otherwise the exception is that of the first failing child. |
| `Normalize.NormalizeListing` | src/server.py:37-38 | A listing yields post records, each with the 12 keys title … over_18 in order, or raises only AttributeError on `get` or TypeError "not iterable". Its cases are stated by `NoDataListing`, `NoChildrenListing`, `WellFormedListing` and `MalformedListings`. |
| `Normalize.NoDataListing` | src/server.py:38 | A listing with no `data` yields the empty list. |
| `Normalize.NoChildrenListing` | src/server.py:38 | A listing whose `data` is a dict with no `children` yields the empty list. |
| `Normalize.WellFormedListing` | src/server.py:37-53 | A listing whose children are dicts with dict `data` yields one normalised record per child, in order. |
| `Normalize.MalformedListings` | src/server.py:38 | A body that is not a dict, or whose `data` is not a dict, raises AttributeError naming the offending type. A `children` value that is not a list, dict or string raises TypeError "not iterable" naming its type. |
| `Fetchers.Plan` | src/server.py:23-27 | A request is built exactly when the limit is a number. With an int limit, the request is built from the clamped limit. |
| `Fetchers.Fetch` | src/server.py:21-60 | A fetcher never raises. It returns either a list of post dicts, each with the 12 keys title … over_18 in order, or a one-key `{"error": ...}` dict whose message starts with "Request failed: " or "Unexpected error: ". |
| `Fetchers.UpstreamFailures` | src/server.py:57-60 | A request error becomes `{"error": "Request failed: <msg>"}`. Any other upstream failure becomes `{"error": "Unexpected error: <msg>"}`. |
| `Fetchers.UncomparableLimit` | src/server.py:23-24 | A limit of another type fails before any request, whatever the network would answer. The result is "Unexpected error: " plus the TypeError text (lines 59-60). |
| `Fetchers.RequestedUrls` | src/server.py:24-27 | With string arguments and an int limit, the URLs are base + `/r/<sub>/<sort>.json?limit=<clamped>` and base + `/u/<user>/submitted.json?limit=<clamped>&sort=<sort>`. Search sends `q`, `limit`, `sort` as parameters (lines 68-73, 114). |
| `Fetchers.ReceivedListing` | src/server.py:33-55 | A well-formed listing received from upstream is returned as one normalised record per child, in order. |
| `Fetchers.MalformedReceived` | src/server.py:59-60 | A received body that cannot be normalised (not a dict, a `data` that is not a dict, `children` that cannot be iterated, a malformed child) becomes "Unexpected error: " followed by the exception text, never "Request failed: ". |
| `Registry.SpecOf` | src/server.py:349-431 | Each advertised schema agrees with its fetcher. The properties are the fetcher's three keywords, and only the primary one is required. Limit is an integer with bounds [1, 25] and default 10, the clamp's bounds and the fetcher's default. The default sort equals the fetcher's default and is among the listed choices. |
| `Registry.RegistryCoversRouting` | src/server.py:349-431 | Exactly three tools are listed, one per tool kind, in order. Their `required` lists are ["subreddit"], ["query"] and ["username"]. |
| `Registry.AdvertisedNamesRoute` | src/server.py:441-446 | Every advertised name routes to the tool it describes. |
| `Registry.AdvertisedLimitSchema` | src/server.py:360-366 | Each limit schema is advertised as type integer, minimum 1, maximum 25, default 10. |
| `Dispatch.Envelope` | src/server.py:454-458 | Every response body carries `jsonrpc` "2.0" and the echoed `id`, and exactly one of `result` or `error`. |
| `Dispatch.Bind` | src/server.py:442-446 | `f(**arguments)` binds exactly when the arguments are a dict, all its keys are the function's keywords, and the primary keyword is present. A passed value is used as given; an absent limit or sort takes 10 or the tool's default sort. A non-dict raises "argument after ** must be a mapping". |
| `Dispatch.Call` | src/server.py:437-458 | `params` that is not a dict raises AttributeError on `get`. A tool result is produced only when the name routes to a tool, and an error reply only when it does not, always with -32601. Any other escaping exception is a binding TypeError. |
| `Dispatch.Dispatch` | src/server.py:333-474 | Every response echoes `id` (None when absent). The status is 500 exactly when the error code is -32603, which only `tools/call` can produce (except for the rendering and printing failures under Left out). Any other error is -32601. |
| `Dispatch.InitializeReply` | src/server.py:338-347 | `initialize` answers with status 200, protocolVersion "2024-11-05", capabilities `{"tools": {}}` and serverInfo `{"name": "Reddit MCP Server", "version": "1.0.0"}`. |
| `Dispatch.ToolsListReply` | src/server.py:348-436 | `tools/list` answers with the three advertised tool schemas, in order. |
| `Dispatch.KnownToolCall` | src/server.py:437-458 | A known tool with bindable arguments answers with status 200 and a result holding one text block with the serialised fetcher output. This holds even when that output is an upstream error. |
| `Dispatch.CallResultShape` | src/server.py:454-458 | `result.content` is a list of exactly one block, of type "text", holding the text. |
| `Dispatch.UnknownToolCall` | src/server.py:447-452 | A name that is no tool's gives code -32601 with "Tool '<name>' not found", status 200. |
| `Dispatch.UnknownMethod` | src/server.py:459-464 | Any other method gives code -32601 with "Method '<method>' not found", status 200. |
| `Dispatch.ParamsNotADict` | src/server.py:466-474 | In a `tools/call` request, a `params` value that is not a dict makes `.get` raise. The answer is code -32603 with "Internal error: ..." and status 500. |
| `Dispatch.UncallableArguments` | src/server.py:466-474 | Arguments the tool function cannot be called with give code -32603 with the TypeError text and status 500, with `id` echoed. |

## Left out

- Dispatch.Dispatch: strings are sequences of Unicode scalar values, so a lone surrogate (which a `\ud800` escape in the request body decodes to) cannot be represented. With one in `method` or a tool name, rendering the response inside the `try` raises, which gives status 500 with -32603 on any branch, not only `tools/call`. With one in `id`, or in an argument key that becomes the unexpected-keyword message, the error handler's own response fails too and no envelope is sent. Separately, the `print` of the request at src/server.py:336 runs inside the `try`: when it raises (stdout cannot encode the request's characters, or is closed) any method gets status 500 with -32603. The status, code and id-echo promises hold only when neither happens.
- Network I/O: `httpx.get`, `raise_for_status`, timeouts and `response.json()` are the `respond` parameter. The model does not say which failures the client classes as request errors.
- Serialisation: `json.dumps(..., indent=2)` is the `dumps` parameter, and the key order of the output text is not modelled.
- Query-string encoding of the search parameters belongs to the HTTP client; the model keeps them as a key/value list.
- Floats: a float holds its exact value and the text `str()` prints for it. That text is taken as given, not derived. NaN and infinities, which Python's JSON parser accepts, are not modelled.
- PyRuntime.Str: `repr` of a string nested inside a list or dict is always single-quoted and unescaped; Python picks the quote and escapes special characters.
- PyRuntime.Message: exception texts follow CPython 3.11 wording, which differs slightly between Python versions.
- The `@mcp.tool` twins (src/server.py:149-305) have the same bodies as the `_http` functions and are covered by the same model. The native tool-server transport validates their arguments before the call; that validation is not part of this model.
- FastAPI, uvicorn, CORS, the health-check route and the `PORT` variable are transport plumbing. The `print` of each request is left out too; its one effect on the response is in the `Dispatch.Dispatch` line above.
- A request body that is not a JSON object is rejected by the web framework before `mcp_endpoint` runs; the model starts from a dict.
- Concurrency: the endpoint keeps no state, so each call is one function application.
- test_reddit.py is a manual script against a live server and states nothing to model.

=== FILE: dispatch.dfy ===
/** The JSON-RPC endpoint: one request dict in, one response envelope out, with no
    state kept between requests. */
module Dispatch {
  import opened Wrappers
  import opened Json
  import opened PyRuntime
  import opened Limit
  import opened Tools
  import opened Fetchers
  import opened Registry

  const MethodNotFound: int := -32601
  const InternalError: int := -32603

  const ProtocolVersion: string := "2024-11-05"
  const ServerName: string := "Reddit MCP Server"
  const ServerVersion: string := "1.0.0"

  datatype RpcError = RpcError(code: int, message: string)

  datatype Reply = Success(result: Json) | Failure(error: RpcError)

  /** The HTTP status, the echoed `id`, and the `result` or `error` member. */
  datatype Response = Response(status: int, id: Json, reply: Reply)

  /** The response body: `{"jsonrpc": "2.0", "id": ..., "result" | "error": ...}`. */
  function Envelope(r: Response): (j: Json)
    ensures j.JObj? && Lookup(j.members, "jsonrpc") == Some(JStr("2.0"))
    ensures Lookup(j.members, "id") == Some(r.id)
    ensures HasKey(j.members, "result") <==> r.reply.Success?
    ensures HasKey(j.members, "error") <==> r.reply.Failure?
  {
    var rest: seq<Member> := match r.reply
      case Success(result) => [("result", result)]
      case Failure(e) => [("error", JObj([("code", JInt(e.code)), ("message", JStr(e.message))]))];
    var ms := [("jsonrpc", JStr("2.0")), ("id", r.id)] + rest;
    assert ms[0] == ("jsonrpc", JStr("2.0")) && ms[1] == ("id", r.id) && ms[2] == rest[0];
    LookupThree(ms);
    JObj(ms)
  }

  /** Lookups in a three-member dict with distinct keys. */
  lemma LookupThree(ms: seq<Member>)
    requires |ms| == 3 && DistinctKeys(ms)
    ensures forall i :: 0 <= i < 3 ==> Lookup(ms, ms[i].0) == Some(ms[i].1)
    ensures forall k :: HasKey(ms, k) <==> k == ms[0].0 || k == ms[1].0 || k == ms[2].0
  {
    LookupDistinct(ms, 0);
    LookupDistinct(ms, 1);
    LookupDistinct(ms, 2);
    forall k
      ensures HasKey(ms, k) ==> k == ms[0].0 || k == ms[1].0 || k == ms[2].0
    {
      LookupSpec(ms, k);
    }
  }

  function InitializeResult(): Json {
    JObj([("protocolVersion", JStr(ProtocolVersion)),
          ("capabilities", JObj([("tools", JObj([]))])),
          ("serverInfo", JObj([("name", JStr(ServerName)), ("version", JStr(ServerVersion))]))])
  }

  function ToolsListResult(): Json {
    JObj([("tools", JArr(seq(|Advertised|, i requires 0 <= i < |Advertised| =>
                                 SpecJson(Advertised[i]))))])
  }

  /** The `result` of a tool call: one content block of type "text" holding the
      serialised tool output. */
  function CallResult(text: string): Json {
    JObj([("content", JArr([JObj([("type", JStr("text")), ("text", JStr(text))])]))])
  }

  /** The keywords the tool's Python function accepts. */
  function Keywords(t: Tool): seq<string> {
    [PrimaryParam(t), "limit", "sort"]
  }

  /** The first key (in dict order) that is not an accepted keyword, if any. */
  function FirstUnexpected(keys: seq<string>, allowed: seq<string>): (r: Option<string>)
    ensures r.None? <==> forall i :: 0 <= i < |keys| ==> keys[i] in allowed
    ensures r.Some? ==> exists i :: 0 <= i < |keys| && keys[i] == r.value && r.value !in allowed
                                    && forall j :: 0 <= j < i ==> keys[j] in allowed
  {
    if |keys| == 0 then None
    else if keys[0] !in allowed then Some(keys[0])
    else
      var rest := FirstUnexpected(keys[1..], allowed);
      assert forall j :: 1 <= j < |keys| ==> keys[j] == keys[1..][j - 1];
      rest
  }

  /** `f(**arguments)`: the arguments must be a dict whose keys are all keywords of
      the function and that names the primary argument; absent optional arguments
      take the function's defaults. */
  function Bind(t: Tool, arguments: Json): (r: Result<ToolArgs, PyError>)
    ensures r.Ok? <==> && arguments.JObj?
                       && (forall k :: HasKey(arguments.members, k) ==> k in Keywords(t))
                       && HasKey(arguments.members, PrimaryParam(t))
    ensures r.Ok? ==> Lookup(arguments.members, PrimaryParam(t)) == Some(r.value.primary)
    ensures r.Ok? ==> (if HasKey(arguments.members, "limit")
                       then Lookup(arguments.members, "limit") == Some(r.value.limit)
                       else r.value.limit == JInt(DefaultLimit))
    ensures r.Ok? ==> (if HasKey(arguments.members, "sort")
                       then Lookup(arguments.members, "sort") == Some(r.value.sort)
                       else r.value.sort == JStr(DefaultSort(t)))
    ensures !arguments.JObj? ==> r == Err(NotAMapping("__main__." + HttpFunction(t) + "()",
                                                      TypeName(arguments)))
  {
    match arguments
    case JObj(ms) =>
      var unexpected := FirstUnexpected(Keys(ms), Keywords(t));
      if unexpected.Some? then Err(UnexpectedKeyword(HttpFunction(t) + "()", unexpected.value))
      else if !HasKey(ms, PrimaryParam(t)) then Err(MissingArgument(HttpFunction(t) + "()", PrimaryParam(t)))
      else Ok(ToolArgs(Lookup(ms, PrimaryParam(t)).value,
                       Get(ms, "limit", JInt(10)),
                       Get(ms, "sort", JStr(DefaultSort(t)))))
    case _ => Err(NotAMapping("__main__." + HttpFunction(t) + "()", TypeName(arguments)))
  }

  /** The `tools/call` branch up to the point where it builds a response; `Err` is an
      exception that escapes it.  `params.get` raises unless `params` is a dict. */
  function Call(request: seq<Member>, respond: HttpGet -> Upstream, dumps: Json -> string)
    : (r: Result<Reply, PyError>)
    ensures var params := Get(request, "params", JObj([]));
            !params.JObj? ==> r == Err(NoAttribute(TypeName(params), "get"))
    ensures r.Ok? && r.value.Success? ==>
              FromName(Get(Get(request, "params", JObj([])).members, "name", JNull)).Some?
    ensures r.Ok? && r.value.Failure? ==>
              && r.value.error.code == MethodNotFound
              && FromName(Get(Get(request, "params", JObj([])).members, "name", JNull)).None?
    ensures r.Err? ==> || (r.error.NoAttribute? && r.error.attr == "get")
                       || r.error.NotAMapping? || r.error.UnexpectedKeyword?
                       || r.error.MissingArgument?
  {
    var params := Get(request, "params", JObj([]));
    match params
    case JObj(ms) =>
      var name := Get(ms, "name", JNull);
      var arguments := Get(ms, "arguments", JObj([]));
      (match FromName(name)
       case None => Ok(Failure(RpcError(MethodNotFound, "Tool '" + Str(name) + "' not found")))
       case Some(t) =>
         var args :- Bind(t, arguments);
         Ok(Success(CallResult(dumps(Fetch(t, args, respond))))))
    case _ => Err(NoAttribute(TypeName(params), "get"))
  }

  /** The endpoint.  `respond` stands for the network, `dumps` for `json.dumps`.
      Every response echoes the request's `id` (None when absent); only an escaped
      exception gives status 500, always with code -32603; every other error is
      -32601 with status 200. */
  function Dispatch(request: seq<Member>, respond: HttpGet -> Upstream, dumps: Json -> string)
    : (r: Response)
    ensures r.id == Get(request, "id", JNull)
    ensures r.status == 200 || r.status == 500
    ensures r.status == 500 <==> r.reply.Failure? && r.reply.error.code == InternalError
    ensures r.reply.Failure? ==> r.reply.error.code == MethodNotFound
                                 || r.reply.error.code == InternalError
    ensures r.status == 500 ==> Get(request, "method", JNull) == JStr("tools/call")
  {
    var id := Get(request, "id", JNull);
    var rpcMethod := Get(request, "method", JNull);
    if rpcMethod == JStr("initialize") then
      Response(200, id, Success(InitializeResult()))
    else if rpcMethod == JStr("tools/list") then
      Response(200, id, Success(ToolsListResult()))
    else if rpcMethod == JStr("tools/call") then
      match Call(request, respond, dumps)
      case Ok(reply) => Response(200, id, reply)
      case Err(e) => Response(500, id, Failure(RpcError(InternalError, "Internal error: " + Message(e))))
    else
      Response(200, id, Failure(RpcError(MethodNotFound, "Method '" + Str(rpcMethod) + "' not found")))
  }

  // ---------------------------------------------------------------------------
  // The branches

  /** `initialize` reports protocol version 2024-11-05, an empty `tools` capability
      and the server's identity. */
  lemma InitializeReply(request: seq<Member>, respond: HttpGet -> Upstream, dumps: Json -> string)
    requires Get(request, "method", JNull) == JStr("initialize")
    ensures var r := Dispatch(request, respond, dumps);
            && r.status == 200 && r.reply.Success? && r.reply.result.JObj?
            && Lookup(r.reply.result.members, "protocolVersion") == Some(JStr("2024-11-05"))
            && Lookup(r.reply.result.members, "capabilities") == Some(JObj([("tools", JObj([]))]))
            && Lookup(r.reply.result.members, "serverInfo")
                 == Some(JObj([("name", JStr("Reddit MCP Server")), ("version", JStr("1.0.0"))]))
  {
    LookupThree(InitializeResult().members);
    assert Dispatch(request, respond, dumps).reply == Success(InitializeResult());
  }

  /** `tools/list` returns the three advertised tools, in order. */
  lemma ToolsListReply(request: seq<Member>, respond: HttpGet -> Upstream, dumps: Json -> string)
    requires Get(request, "method", JNull) == JStr("tools/list")
    ensures var r := Dispatch(request, respond, dumps);
            && r.status == 200 && r.reply.Success? && r.reply.result.JObj?
            && var tools := Lookup(r.reply.result.members, "tools");
               && tools.Some? && tools.value.JArr? && |tools.value.items| == 3
               && tools.value.items[0] == SpecJson(SpecOf(SubredditPosts))
               && tools.value.items[1] == SpecJson(SpecOf(SearchReddit))
               && tools.value.items[2] == SpecJson(SpecOf(UserPosts))
  {
    assert Dispatch(request, respond, dumps).reply == Success(ToolsListResult());
  }

  /** A call to a known tool with acceptable arguments answers with exactly one text
      block holding the tool's output, whatever that output is: an upstream failure
      is a tool result, not a protocol error. */
  lemma KnownToolCall(request: seq<Member>, respond: HttpGet -> Upstream, dumps: Json -> string,
                      t: Tool, params: seq<Member>, args: ToolArgs)
    requires Get(request, "method", JNull) == JStr("tools/call")
    requires Get(request, "params", JObj([])) == JObj(params)
    requires Get(params, "name", JNull) == JStr(Name(t))
    requires Bind(t, Get(params, "arguments", JObj([]))) == Ok(args)
    ensures var r := Dispatch(request, respond, dumps);
            && r.status == 200
            && r.reply == Success(CallResult(dumps(Fetch(t, args, respond))))
  {
    KnownToolRoutes(request, respond, dumps, t, params, args);
  }

  /** The `tools/call` branch for a known tool with acceptable arguments. */
  lemma KnownToolRoutes(request: seq<Member>, respond: HttpGet -> Upstream, dumps: Json -> string,
                        t: Tool, params: seq<Member>, args: ToolArgs)
    requires Get(request, "params", JObj([])) == JObj(params)
    requires Get(params, "name", JNull) == JStr(Name(t))
    requires Bind(t, Get(params, "arguments", JObj([]))) == Ok(args)
    ensures Call(request, respond, dumps) == Ok(Success(CallResult(dumps(Fetch(t, args, respond)))))
  {
    RoutingInvertsNames(t, Name(t));
  }

  /** The shape of a tool call's result: a `content` list of exactly one block whose
      type is "text". */
  lemma CallResultShape(text: string)
    ensures var c := Lookup(CallResult(text).members, "content");
            && c.Some? && c.value.JArr? && |c.value.items| == 1
            && c.value.items[0].JObj?
            && Lookup(c.value.items[0].members, "type") == Some(JStr("text"))
            && Lookup(c.value.items[0].members, "text") == Some(JStr(text))
  {
  }

  /** A name that is not one of the three tools gets -32601 naming it. */
  lemma UnknownToolCall(request: seq<Member>, respond: HttpGet -> Upstream, dumps: Json -> string,
                        params: seq<Member>)
    requires Get(request, "method", JNull) == JStr("tools/call")
    requires Get(request, "params", JObj([])) == JObj(params)
    requires forall t :: Get(params, "name", JNull) != JStr(Name(t))
    ensures var r := Dispatch(request, respond, dumps);
            && r.status == 200
            && r.reply == Failure(RpcError(-32601,
                                           "Tool '" + Str(Get(params, "name", JNull)) + "' not found"))
  {
  }

  /** A method other than the three gets -32601 naming it. */
  lemma UnknownMethod(request: seq<Member>, respond: HttpGet -> Upstream, dumps: Json -> string)
    requires Get(request, "method", JNull) !in
               [JStr("initialize"), JStr("tools/list"), JStr("tools/call")]
    ensures var r := Dispatch(request, respond, dumps);
            && r.status == 200
            && r.reply == Failure(RpcError(-32601,
                                           "Method '" + Str(Get(request, "method", JNull)) + "' not found"))
  {
  }

  /** `params` that are not a dict make `params.get` raise: -32603 with status 500. */
  lemma ParamsNotADict(request: seq<Member>, respond: HttpGet -> Upstream, dumps: Json -> string)
    requires Get(request, "method", JNull) == JStr("tools/call")
    requires !Get(request, "params", JObj([])).JObj?
    ensures Dispatch(request, respond, dumps)
              == Response(500, Get(request, "id", JNull),
                          Failure(RpcError(-32603, "Internal error: "
                                           + Message(NoAttribute(TypeName(Get(request, "params", JObj([]))),
                                                                 "get")))))
  {
    var params := Get(request, "params", JObj([]));
    assert Call(request, respond, dumps) == Err(NoAttribute(TypeName(params), "get"));
  }

  /** Arguments the tool's function cannot be called with (not a dict, an unknown
      keyword, the primary argument missing) raise outside the fetcher's own handler:
      -32603 with status 500. */
  lemma UncallableArguments(request: seq<Member>, respond: HttpGet -> Upstream,
                            dumps: Json -> string, t: Tool, params: seq<Member>)
    requires Get(request, "method", JNull) == JStr("tools/call")
    requires Get(request, "params", JObj([])) == JObj(params)
    requires Get(params, "name", JNull) == JStr(Name(t))
    requires Bind(t, Get(params, "arguments", JObj([]))).Err?
    ensures Dispatch(request, respond, dumps)
              == Response(500, Get(request, "id", JNull),
                          Failure(RpcError(-32603, "Internal error: "
                                           + Message(Bind(t, Get(params, "arguments", JObj([]))).error))))
  {
    RoutingInvertsNames(t, Name(t));
    var e := Bind(t, Get(params, "arguments", JObj([]))).error;
    assert Call(request, respond, dumps) == Err(e);
  }
}

=== FILE: fetch.dfy ===
/** The body shared by the three fetchers: clamp the limit, issue one request, and
    turn the outcome into either the list of post records or an `{"error": ...}`
    dict.  The network call is the `respond` parameter. */
module Fetchers {
  import opened Wrappers
  import opened Json
  import opened PyRuntime
  import opened Limit
  import opened Tools
  import opened Normalize

  /** What the network call gives back: a decoded body, an exception of the HTTP
      client's request-error family (connection failure, timeout, ...), or any other
      exception on the way (a non-2xx status, a body that is not JSON, ...) with its
      `str()`. */
  datatype Upstream =
    | Received(body: Json)
    | RequestFailed(message: string)
    | OtherFailure(message: string)

  /** A fetcher's arguments after binding, defaults filled in. */
  datatype ToolArgs = ToolArgs(primary: Json, limit: Json, sort: Json)

  const RequestFailedPrefix: string := "Request failed: "
  const UnexpectedPrefix: string := "Unexpected error: "

  function ErrorResult(message: string): Json {
    JObj([("error", JStr(message))])
  }

  /** The value a fetcher returns when it catches an exception. */
  predicate IsErrorResult(r: Json) {
    && r.JObj? && |r.members| == 1 && r.members[0].0 == "error" && r.members[0].1.JStr?
    && var m := r.members[0].1.s;
       || (|m| >= |RequestFailedPrefix| && m[..|RequestFailedPrefix|] == RequestFailedPrefix)
       || (|m| >= |UnexpectedPrefix| && m[..|UnexpectedPrefix|] == UnexpectedPrefix)
  }

  /** The request a fetcher issues, or the exception the clamp raises before it. */
  function Plan(t: Tool, args: ToolArgs): (r: Result<HttpGet, PyError>)
    ensures r.Ok? <==> IsNumber(args.limit)
    ensures args.limit.JInt? ==>
              r == Ok(BuildRequest(t, args.primary, JInt(Clamp(args.limit.i)), args.sort))
  {
    var limit :- ClampLimit(args.limit);
    Ok(BuildRequest(t, args.primary, limit, args.sort))
  }

  /** A fetcher: it never raises; it returns a list of post records or an error dict. */
  function Fetch(t: Tool, args: ToolArgs, respond: HttpGet -> Upstream): (r: Json)
    ensures r.JArr? || IsErrorResult(r)
    ensures r.JArr? ==> forall i :: 0 <= i < |r.items| ==>
                          && r.items[i].JObj? && |r.items[i].members| == |PostFields|
                          && forall j :: 0 <= j < |PostFields| ==> r.items[i].members[j].0 == PostFields[j]
  {
    match Plan(t, args)
    case Err(e) => ErrorResult(UnexpectedPrefix + Message(e))
    case Ok(req) =>
      match respond(req)
      case RequestFailed(m) => ErrorResult(RequestFailedPrefix + m)
      case OtherFailure(m) => ErrorResult(UnexpectedPrefix + m)
      case Received(body) =>
        match NormalizeListing(body)
        case Ok(posts) => JArr(posts)
        case Err(e) => ErrorResult(UnexpectedPrefix + Message(e))
  }

  /** A failed network call becomes an error dict carrying the exception's text,
      with a prefix that tells request errors from every other failure. */
  lemma UpstreamFailures(t: Tool, args: ToolArgs, respond: HttpGet -> Upstream, m: string)
    requires Plan(t, args).Ok?
    ensures respond(Plan(t, args).value) == RequestFailed(m) ==>
              Fetch(t, args, respond) == ErrorResult("Request failed: " + m)
    ensures respond(Plan(t, args).value) == OtherFailure(m) ==>
              Fetch(t, args, respond) == ErrorResult("Unexpected error: " + m)
  {
  }

  /** A limit Python cannot compare with 1 fails before any request is made: the
      result is the TypeError's text whatever the network would have answered. */
  lemma UncomparableLimit(t: Tool, args: ToolArgs, respond: HttpGet -> Upstream,
                          respond': HttpGet -> Upstream)
    requires !IsNumber(args.limit)
    ensures Fetch(t, args, respond) == Fetch(t, args, respond')
    ensures Fetch(t, args, respond)
              == ErrorResult(UnexpectedPrefix + Message(Unorderable(">", "int", TypeName(args.limit))))
  {
  }

  /** With an integer limit, the subreddit and user tools ask for the clamped count
      and pass the sort token through; the search tool sends the same values as
      query parameters. */
  lemma RequestedUrls(primary: string, n: int, sort: string)
    ensures Plan(SubredditPosts, ToolArgs(JStr(primary), JInt(n), JStr(sort)))
              == Ok(HttpGet("https://www.reddit.com/r/" + primary + "/" + sort + ".json?limit="
                            + Decimal(Clamp(n)), [], UserAgent, TimeoutSeconds))
    ensures Plan(UserPosts, ToolArgs(JStr(primary), JInt(n), JStr(sort)))
              == Ok(HttpGet("https://www.reddit.com/u/" + primary + "/submitted.json?limit="
                            + Decimal(Clamp(n)) + "&sort=" + sort, [], UserAgent, TimeoutSeconds))
    ensures Plan(SearchReddit, ToolArgs(JStr(primary), JInt(n), JStr(sort)))
              == Ok(HttpGet("https://www.reddit.com/search.json",
                            [("q", JStr(primary)), ("limit", JInt(Clamp(n))), ("sort", JStr(sort))],
                            UserAgent, TimeoutSeconds))
    ensures 1 <= Clamp(n) <= 25
  {
    assert ApiBase + "/r/" + primary == "https://www.reddit.com/r/" + primary;
    assert ApiBase + "/u/" + primary == "https://www.reddit.com/u/" + primary;
    assert ApiBase + "/search.json" == "https://www.reddit.com/search.json";
  }

  /** A received body that cannot be normalised (not a dict, a `data` that is not a
      dict, `children` that cannot be iterated, a malformed child) is caught by the
      general handler: "Unexpected error: " and the exception's text. */
  lemma MalformedReceived(t: Tool, args: ToolArgs, respond: HttpGet -> Upstream, body: Json)
    requires Plan(t, args).Ok? && respond(Plan(t, args).value) == Received(body)
    requires NormalizeListing(body).Err?
    ensures Fetch(t, args, respond) == ErrorResult(UnexpectedPrefix + Message(NormalizeListing(body).error))
  {
  }

  /** A listing received intact comes back as one record per child, in order. */
  lemma ReceivedListing(t: Tool, args: ToolArgs, respond: HttpGet -> Upstream, body: Json,
                        children: seq<Json>)
    requires Plan(t, args).Ok? && respond(Plan(t, args).value) == Received(body)
    requires body.JObj? && Get(body.members, "data", JObj([])).JObj?
    requires Get(Get(body.members, "data", JObj([])).members, "children", JArr([])) == JArr(children)
    requires forall i :: 0 <= i < |children| ==>
               children[i].JObj? && Get(children[i].members, "data", JObj([])).JObj?
    ensures Fetch(t, args, respond).JArr?
    ensures |Fetch(t, args, respond).items| == |children|
    ensures forall i :: 0 <= i < |children| ==>
              Fetch(t, args, respond).items[i]
                == JObj(NormalizePost(Get(children[i].members, "data", JObj([])).members))
  {
    WellFormedListing(body, children);
  }
}

=== FILE: json.dfy ===
/** The Python values the server handles: everything it reads arrives as decoded JSON
    (the request body, the upstream listing), so one datatype covers all of them. */
module Json {
  import opened Wrappers

  /** A decoded JSON value as Python sees it.  Objects keep their members in document
      order; a float keeps its exact value (for comparisons) and the text Python's
      `str()` prints for it. */
  datatype Json =
    | JNull
    | JBool(b: bool)
    | JInt(i: int)
    | JFloat(value: real, text: string)
    | JStr(s: string)
    | JArr(items: seq<Json>)
    | JObj(members: seq<Member>)

  type Member = (string, Json)

  /** The value bound to `key`; when a document repeats a key the last binding wins,
      as it does when Python's json module builds a dict. */
  function Lookup(ms: seq<Member>, key: string): Option<Json> {
    if |ms| == 0 then None
    else if ms[|ms| - 1].0 == key then Some(ms[|ms| - 1].1)
    else Lookup(ms[..|ms| - 1], key)
  }

  /** A lookup finds nothing exactly when no member has the key, and otherwise finds
      the value of the last member that has it. */
  lemma {:induction false} LookupSpec(ms: seq<Member>, key: string)
    ensures Lookup(ms, key).None? <==> forall i :: 0 <= i < |ms| ==> ms[i].0 != key
    ensures Lookup(ms, key).Some? ==>
              exists i :: 0 <= i < |ms| && ms[i] == (key, Lookup(ms, key).value)
                          && forall j :: i < j < |ms| ==> ms[j].0 != key
  {
    if |ms| > 0 && ms[|ms| - 1].0 != key {
      var front := ms[..|ms| - 1];
      LookupSpec(front, key);
      assert forall i :: 0 <= i < |front| ==> front[i] == ms[i];
      if Lookup(ms, key).Some? {
        var i :| 0 <= i < |front| && front[i] == (key, Lookup(front, key).value)
                 && forall j :: i < j < |front| ==> front[j].0 != key;
        assert ms[i] == (key, Lookup(ms, key).value);
      }
    }
  }

  predicate DistinctKeys(ms: seq<Member>) {
    forall i, j :: 0 <= i < j < |ms| ==> ms[i].0 != ms[j].0
  }

  /** In a dict whose keys are distinct, each member is what a lookup of its key finds. */
  lemma {:induction false} LookupDistinct(ms: seq<Member>, i: nat)
    requires DistinctKeys(ms)
    requires i < |ms|
    ensures Lookup(ms, ms[i].0) == Some(ms[i].1)
  {
    if i < |ms| - 1 {
      LookupDistinct(ms[..|ms| - 1], i);
    }
  }

  /** Python's `d.get(key, default)` on a dict. */
  function Get(ms: seq<Member>, key: string, default: Json): Json {
    Lookup(ms, key).GetOr(default)
  }

  predicate HasKey(ms: seq<Member>, key: string) {
    Lookup(ms, key).Some?
  }

  /** The keys of the dict, each once, in the order of their first occurrence, which
      is the order in which iterating over a Python dict yields them (the order is
      stated by `KeysInFirstOccurrenceOrder`). */
  function Keys(ms: seq<Member>): (ks: seq<string>)
    ensures forall k :: k in ks <==> HasKey(ms, k)
    ensures forall i, j :: 0 <= i < j < |ks| ==> ks[i] != ks[j]
  {
    if |ms| == 0 then []
    else
      var front := Keys(ms[..|ms| - 1]);
      var k := ms[|ms| - 1].0;
      if k in front then front else front + [k]
  }

  /** The position of the first member with the key, or the length when none has it. */
  function FirstIndex(ms: seq<Member>, key: string): (f: nat)
    ensures f <= |ms|
    ensures f < |ms| ==> ms[f].0 == key
    ensures forall q :: 0 <= q < f ==> ms[q].0 != key
  {
    if |ms| == 0 then 0
    else
      var f := FirstIndex(ms[..|ms| - 1], key);
      assert forall q :: 0 <= q < |ms| - 1 ==> ms[..|ms| - 1][q] == ms[q];
      if f < |ms| - 1 then f
      else if ms[|ms| - 1].0 == key then |ms| - 1
      else |ms|
  }

  /** A key is present exactly when its first occurrence lies inside the dict. */
  lemma FirstIndexFound(ms: seq<Member>, key: string)
    ensures HasKey(ms, key) <==> FirstIndex(ms, key) < |ms|
  {
    LookupSpec(ms, key);
  }

  /** `Keys` lists the keys in the order in which each first occurs in the document. */
  lemma {:induction false} KeysInFirstOccurrenceOrder(ms: seq<Member>)
    ensures forall i, j :: 0 <= i < j < |Keys(ms)| ==>
              FirstIndex(ms, Keys(ms)[i]) < FirstIndex(ms, Keys(ms)[j])
  {
    if |ms| > 0 {
      var front := ms[..|ms| - 1];
      var ks := Keys(front);
      var last := ms[|ms| - 1].0;
      KeysInFirstOccurrenceOrder(front);
      forall k | k in ks
        ensures FirstIndex(ms, k) == FirstIndex(front, k) < |front|
      {
        FirstIndexFound(front, k);
      }
      if last !in ks {
        FirstIndexFound(front, last);
        assert FirstIndex(ms, last) == |front|;
        assert Keys(ms) == ks + [last];
      }
    }
  }

  /** The name of the Python type of a decoded value, as exception messages print it. */
  function TypeName(v: Json): string {
    match v
    case JNull => "NoneType"
    case JBool(_) => "bool"
    case JInt(_) => "int"
    case JFloat(_, _) => "float"
    case JStr(_) => "str"
    case JArr(_) => "list"
    case JObj(_) => "dict"
  }

  /** Python orders bool, int and float values with one another (bool is a subclass of int). */
  predicate IsNumber(v: Json) {
    v.JBool? || v.JInt? || v.JFloat?
  }

  function NumValue(v: Json): real
    requires IsNumber(v)
  {
    match v
    case JBool(b) => if b then 1.0 else 0.0
    case JInt(i) => i as real
    case JFloat(x, _) => x
  }
}

=== FILE: limit.dfy ===
/** The result-count bound every fetcher applies first: `min(max(limit, 1), 25)`. */
module Limit {
  import opened Wrappers
  import opened Json
  import opened PyRuntime

  const MinLimit: int := 1
  const MaxLimit: int := 25
  /** The value a caller gets when it passes no `limit`. */
  const DefaultLimit: int := 10

  /** `max(limit, 1)` followed by `min(_, 25)` on a Python int. */
  function Clamp(n: int): (r: int)
    ensures MinLimit <= r <= MaxLimit
    ensures MinLimit <= n <= MaxLimit ==> r == n
    ensures n < MinLimit ==> r == MinLimit
    ensures n > MaxLimit ==> r == MaxLimit
  {
    var raised := if MinLimit > n then MinLimit else n;
    if MaxLimit < raised then MaxLimit else raised
  }

  /** The same expression on whatever value the caller passed.  Python's `max` keeps
      its first argument unless `1 > limit`, and `min` keeps the raised value unless
      `25 < raised`; bools, ints and floats compare numerically, so an in-range value
      comes back unchanged (a `True` stays `True`), and any other value makes the
      first comparison raise. */
  function ClampLimit(limit: Json): (r: Result<Json, PyError>)
    ensures r.Ok? <==> IsNumber(limit)
    ensures r.Ok? ==> IsNumber(r.value)
                      && MinLimit as real <= NumValue(r.value) <= MaxLimit as real
    ensures r.Ok? && MinLimit as real <= NumValue(limit) <= MaxLimit as real ==> r.value == limit
    ensures limit.JInt? ==> r == Ok(JInt(Clamp(limit.i)))
    ensures r.Err? ==> r.error == Unorderable(">", "int", TypeName(limit))
  {
    if !IsNumber(limit) then Err(Unorderable(">", "int", TypeName(limit)))
    else
      var raised := if MinLimit as real > NumValue(limit) then JInt(MinLimit) else limit;
      Ok(if MaxLimit as real < NumValue(raised) then JInt(MaxLimit) else raised)
  }

  /** Clamping an already clamped limit changes nothing. */
  lemma ClampIdempotent(limit: Json)
    requires ClampLimit(limit).Ok?
    ensures ClampLimit(ClampLimit(limit).value) == ClampLimit(limit)
  {
  }
}

=== FILE: normalize.dfy ===
/** Turning the upstream listing `{"data": {"children": [{"data": {...}}, ...]}}` into
    the list of fixed-shape post records every tool returns. */
module Normalize {
  import opened Wrappers
  import opened Json
  import opened PyRuntime

  /** Prefix of every output permalink (the raw `permalink` is a site-relative path). */
  const PermalinkPrefix: string := "https://reddit.com"

  /** The keys of an output post, in output order. */
  const PostFields: seq<string> :=
    ["title", "author", "score", "upvote_ratio", "num_comments", "url", "permalink",
     "created_utc", "selftext", "subreddit", "is_self", "over_18"]

  /** What kind of value each output field holds. */
  datatype FieldKind = Text | Number | Flag | Link

  /** The kind of each field of `PostFields`, position by position. */
  const FieldKinds: seq<FieldKind> :=
    [Text, Text, Number, Number, Number, Text, Link, Number, Text, Text, Flag, Flag]

  /** What a field falls back to when the raw post lacks it: numbers fall back to 0,
      flags to False, text (the author included) and the relative link to the empty
      string. */
  function KindDefault(kind: FieldKind): Json {
    match kind
    case Number => JInt(0)
    case Flag => JBool(false)
    case _ => JStr("")
  }

  function FieldDefault(i: nat): Json
    requires i < |FieldKinds|
  {
    KindDefault(FieldKinds[i])
  }

  /** The output permalink: the prefix followed by `str()` of the raw relative path,
      so the prefix alone when the raw post has none. */
  function Permalink(raw: seq<Member>): (p: Json)
    ensures p.JStr? && |p.s| >= |PermalinkPrefix| && p.s[..|PermalinkPrefix|] == PermalinkPrefix
    ensures !HasKey(raw, "permalink") ==> p == JStr(PermalinkPrefix)
    ensures HasKey(raw, "permalink") && Lookup(raw, "permalink").value.JStr? ==>
              p == JStr(PermalinkPrefix + Lookup(raw, "permalink").value.s)
  {
    assert PermalinkPrefix + "" == PermalinkPrefix;
    JStr(PermalinkPrefix + Str(Get(raw, "permalink", JStr(""))))
  }

  /** One post's output record, built from its raw `data` dict. */
  function NormalizePost(raw: seq<Member>): (post: seq<Member>)
    ensures |post| == |PostFields|
    ensures forall i :: 0 <= i < |post| ==> post[i].0 == PostFields[i]
    ensures post[6].1 == Permalink(raw)
  {
    [("title", Get(raw, "title", JStr(""))),
     ("author", Get(raw, "author", JStr(""))),
     ("score", Get(raw, "score", JInt(0))),
     ("upvote_ratio", Get(raw, "upvote_ratio", JInt(0))),
     ("num_comments", Get(raw, "num_comments", JInt(0))),
     ("url", Get(raw, "url", JStr(""))),
     ("permalink", Permalink(raw)),
     ("created_utc", Get(raw, "created_utc", JInt(0))),
     ("selftext", Get(raw, "selftext", JStr(""))),
     ("subreddit", Get(raw, "subreddit", JStr(""))),
     ("is_self", Get(raw, "is_self", JBool(false))),
     ("over_18", Get(raw, "over_18", JBool(false)))]
  }

  lemma PostFieldsDistinct()
    ensures forall i, j :: 0 <= i < j < |PostFields| ==> PostFields[i] != PostFields[j]
  {
  }

  /** Each field but the permalink holds the raw post's value when present and the
      default of its kind otherwise. */
  lemma NormalizedPostValues(raw: seq<Member>)
    ensures forall i :: 0 <= i < |PostFields| && FieldKinds[i] != Link ==>
              NormalizePost(raw)[i].1 == Get(raw, PostFields[i], FieldDefault(i))
  {
    var post := NormalizePost(raw);
    forall i | 0 <= i < |PostFields| && FieldKinds[i] != Link
      ensures post[i].1 == Get(raw, PostFields[i], FieldDefault(i))
    {
      if i < 6 {
        assert post[..6] == [("title", Get(raw, "title", JStr(""))),
                             ("author", Get(raw, "author", JStr(""))),
                             ("score", Get(raw, "score", JInt(0))),
                             ("upvote_ratio", Get(raw, "upvote_ratio", JInt(0))),
                             ("num_comments", Get(raw, "num_comments", JInt(0))),
                             ("url", Get(raw, "url", JStr("")))];
        assert post[i] == post[..6][i];
      } else {
        assert post[7..] == [("created_utc", Get(raw, "created_utc", JInt(0))),
                             ("selftext", Get(raw, "selftext", JStr(""))),
                             ("subreddit", Get(raw, "subreddit", JStr(""))),
                             ("is_self", Get(raw, "is_self", JBool(false))),
                             ("over_18", Get(raw, "over_18", JBool(false)))];
        assert post[i] == post[7..][i - 7];
      }
    }
  }

  /** Read as a dict, an output post has exactly the twelve keys; each is the raw
      post's value when present and its default otherwise, except the permalink. */
  lemma NormalizedPostFields(raw: seq<Member>)
    ensures forall k :: HasKey(NormalizePost(raw), k) <==> k in PostFields
    ensures forall i :: 0 <= i < |PostFields| && FieldKinds[i] != Link ==>
              Lookup(NormalizePost(raw), PostFields[i]) == Some(Get(raw, PostFields[i], FieldDefault(i)))
  {
    var post := NormalizePost(raw);
    NormalizedPostValues(raw);
    PostFieldsDistinct();
    assert DistinctKeys(post);
    forall i | 0 <= i < |PostFields|
      ensures Lookup(post, PostFields[i]) == Some(post[i].1)
    {
      LookupDistinct(post, i);
    }
    forall k | HasKey(post, k)
      ensures k in PostFields
    {
      LookupSpec(post, k);
    }
  }

  /** The permalink depends on the raw `permalink` alone: two raw posts that agree on
      it (whatever its type, or both lacking it), however they differ elsewhere (in
      the absolute `url`, say), get the same permalink, and a relative path can be
      read back from the result. */
  lemma PermalinkOnlyFromPath(raw: seq<Member>, raw': seq<Member>)
    requires Lookup(raw, "permalink") == Lookup(raw', "permalink")
    ensures Permalink(raw) == Permalink(raw')
    ensures var path := Lookup(raw, "permalink");
            path.Some? && path.value.JStr? ==>
              var p := Permalink(raw).s;
              p[..|PermalinkPrefix|] == PermalinkPrefix && p[|PermalinkPrefix|..] == path.value.s
  {
  }

  /** A post whose author is missing gets the empty string, not a placeholder. */
  lemma MissingAuthorIsEmpty(raw: seq<Member>)
    requires !HasKey(raw, "author")
    ensures NormalizePost(raw)[1] == ("author", JStr(""))
  {
  }

  /** One item of `children`: its `data` dict normalised, or the exception raised
      when the item, or its `data`, is not a dict. */
  function NormalizeItem(item: Json): (r: Result<Json, PyError>)
    ensures r.Ok? <==> item.JObj? && Get(item.members, "data", JObj([])).JObj?
    ensures r.Ok? ==> r.value == JObj(NormalizePost(Get(item.members, "data", JObj([])).members))
    ensures !item.JObj? ==> r == Err(NoAttribute(TypeName(item), "get"))
  {
    var postData :- DictGet(item, "data", JObj([]));
    match postData
    case JObj(ms) => Ok(JObj(NormalizePost(ms)))
    case _ => Err(NoAttribute(TypeName(postData), "get"))
  }

  /** The loop over `children`: one record per item in item order, or the exception
      of the first item that cannot be normalised. */
  function NormalizeAll(items: seq<Json>): (r: Result<seq<Json>, PyError>)
    ensures r.Ok? <==> forall i :: 0 <= i < |items| ==> NormalizeItem(items[i]).Ok?
    ensures r.Ok? ==> |r.value| == |items|
                      && forall i :: 0 <= i < |items| ==> r.value[i] == NormalizeItem(items[i]).value
    ensures r.Err? ==> exists k :: 0 <= k < |items| && NormalizeItem(items[k]) == Err(r.error)
                                   && forall j :: 0 <= j < k ==> NormalizeItem(items[j]).Ok?
  {
    if |items| == 0 then Ok([])
    else
      var head := NormalizeItem(items[0]);
      if head.Err? then Err(head.error)
      else
        var rest := NormalizeAll(items[1..]);
        assert forall j :: 1 <= j < |items| ==> items[j] == items[1..][j - 1];
        if rest.Err? then Err(rest.error)
        else Ok([head.value] + rest.value)
  }

  /** The whole listing: `data.get("data", {}).get("children", [])`, iterated. */
  function NormalizeListing(body: Json): (r: Result<seq<Json>, PyError>)
    ensures r.Ok? ==> forall i :: 0 <= i < |r.value| ==>
                        && r.value[i].JObj? && |r.value[i].members| == |PostFields|
                        && forall j :: 0 <= j < |PostFields| ==> r.value[i].members[j].0 == PostFields[j]
    ensures r.Err? ==> (r.error.NoAttribute? && r.error.attr == "get") || r.error.NotIterable?
  {
    var data :- DictGet(body, "data", JObj([]));
    var children :- DictGet(data, "children", JArr([]));
    var items :- Iterate(children);
    NormalizeAll(items)
  }

  /** A listing with no `data` yields no posts. */
  lemma NoDataListing(members: seq<Member>)
    requires !HasKey(members, "data")
    ensures NormalizeListing(JObj(members)) == Ok([])
  {
  }

  /** A listing whose `data` has no `children` yields no posts. */
  lemma NoChildrenListing(members: seq<Member>, dataMembers: seq<Member>)
    requires Lookup(members, "data") == Some(JObj(dataMembers))
    requires !HasKey(dataMembers, "children")
    ensures NormalizeListing(JObj(members)) == Ok([])
  {
  }

  /** A well-formed listing yields one record per child, in order. */
  lemma WellFormedListing(body: Json, children: seq<Json>)
    requires body.JObj? && Get(body.members, "data", JObj([])).JObj?
    requires Get(Get(body.members, "data", JObj([])).members, "children", JArr([])) == JArr(children)
    requires forall i :: 0 <= i < |children| ==>
               children[i].JObj? && Get(children[i].members, "data", JObj([])).JObj?
    ensures NormalizeListing(body).Ok?
    ensures |NormalizeListing(body).value| == |children|
    ensures forall i :: 0 <= i < |children| ==>
              NormalizeListing(body).value[i]
                == JObj(NormalizePost(Get(children[i].members, "data", JObj([])).members))
  {
  }

  /** A listing that is not a dict, or whose `data` is not a dict, raises
      AttributeError; `children` that cannot be iterated raise TypeError. */
  lemma MalformedListings(body: Json)
    ensures !body.JObj? ==> NormalizeListing(body) == Err(NoAttribute(TypeName(body), "get"))
    ensures body.JObj? && !Get(body.members, "data", JObj([])).JObj? ==>
              NormalizeListing(body)
                == Err(NoAttribute(TypeName(Get(body.members, "data", JObj([]))), "get"))
    ensures body.JObj? && Get(body.members, "data", JObj([])).JObj? ==>
              var children := Get(Get(body.members, "data", JObj([])).members, "children", JArr([]));
              !(children.JArr? || children.JObj? || children.JStr?) ==>
                NormalizeListing(body) == Err(NotIterable(TypeName(children)))
  {
  }
}

=== FILE: pyruntime.dfy ===
/** The few pieces of Python's runtime the server's code leans on: `str()` (f-string
    interpolation), `dict.get`, iteration in a `for` loop, and the exceptions these
    raise on a value of the wrong type, with the text `str(e)` gives for them. */
module PyRuntime {
  import opened Wrappers
  import opened Json

  /** The exceptions the modelled code can raise on its own, before any network call. */
  datatype PyError =
    | NoAttribute(typeName: string, attr: string)          // AttributeError
    | NotIterable(typeName: string)                        // TypeError from `for x in v`
    | Unorderable(op: string, left: string, right: string) // TypeError from `<`, `>`
    | NotAMapping(callee: string, typeName: string)        // TypeError from `f(**v)`
    | UnexpectedKeyword(callee: string, keyword: string)   // TypeError from `f(k=...)`
    | MissingArgument(callee: string, param: string)       // TypeError from `f()`

  /** `str(e)` for each exception, in CPython's wording. */
  function Message(e: PyError): string {
    match e
    case NoAttribute(t, a) => "'" + t + "' object has no attribute '" + a + "'"
    case NotIterable(t) => "'" + t + "' object is not iterable"
    case Unorderable(op, l, r) =>
      "'" + op + "' not supported between instances of '" + l + "' and '" + r + "'"
    case NotAMapping(f, t) => f + " argument after ** must be a mapping, not " + t
    case UnexpectedKeyword(f, k) => f + " got an unexpected keyword argument '" + k + "'"
    case MissingArgument(f, p) => f + " missing 1 required positional argument: '" + p + "'"
  }

  /** `v.get(key, default)`: only a dict has a `get` attribute. */
  function DictGet(v: Json, key: string, default: Json): (r: Result<Json, PyError>)
    ensures r.Ok? <==> v.JObj?
    ensures r.Ok? ==> (HasKey(v.members, key) ==> Lookup(v.members, key) == Some(r.value))
    ensures r.Ok? ==> (!HasKey(v.members, key) ==> r.value == default)
    ensures r.Err? ==> r.error == NoAttribute(TypeName(v), "get")
  {
    match v
    case JObj(ms) => Ok(Get(ms, key, default))
    case _ => Err(NoAttribute(TypeName(v), "get"))
  }

  /** The items a `for` loop visits: a list's elements, a dict's keys, a string's
      one-character strings; any other value is not iterable. */
  function Iterate(v: Json): (r: Result<seq<Json>, PyError>)
    ensures r.Ok? <==> (v.JArr? || v.JObj? || v.JStr?)
    ensures v.JArr? ==> r == Ok(v.items)
    ensures v.JStr? ==> r.Ok? && |r.value| == |v.s|
                        && forall i :: 0 <= i < |v.s| ==> r.value[i] == JStr([v.s[i]])
    ensures v.JObj? ==> r.Ok? && |r.value| == |Keys(v.members)|
                        && forall i :: 0 <= i < |r.value| ==> r.value[i] == JStr(Keys(v.members)[i])
    ensures r.Err? ==> r.error == NotIterable(TypeName(v))
  {
    match v
    case JArr(items) => Ok(items)
    case JObj(ms) =>
      var ks := Keys(ms);
      Ok(seq(|ks|, i requires 0 <= i < |ks| => JStr(ks[i])))
    case JStr(s) => Ok(seq(|s|, i requires 0 <= i < |s| => JStr([s[i]])))
    case _ => Err(NotIterable(TypeName(v)))
  }

  // ---------------------------------------------------------------------------
  // Decimal text of integers (`str(n)` for an int)

  predicate IsDigit(c: char) {
    '0' <= c <= '9'
  }

  predicate AllDigits(s: string) {
    forall i :: 0 <= i < |s| ==> IsDigit(s[i])
  }

  function DigitChar(d: nat): (c: char)
    requires d < 10
    ensures IsDigit(c) && (c as int) - ('0' as int) == d
  {
    ('0' as int + d) as char
  }

  /** The digits of `n`, most significant first, without leading zeros. */
  function NatDigits(n: nat): (s: string)
    ensures |s| >= 1 && AllDigits(s)
    ensures |s| > 1 ==> s[0] != '0'
  {
    if n < 10 then [DigitChar(n)] else NatDigits(n / 10) + [DigitChar(n % 10)]
  }

  /** `str(n)` for a Python int. */
  function Decimal(n: int): string {
    if n < 0 then "-" + NatDigits(-n) else NatDigits(n)
  }

  /** The value of a string of decimal digits (`int(s)` on such a string). */
  function ParseNat(s: string): nat
    requires AllDigits(s)
  {
    if |s| == 0 then 0
    else ParseNat(s[..|s| - 1]) * 10 + ((s[|s| - 1] as int) - ('0' as int))
  }

  /** `int(s)` restricted to what `str` produces: an optional minus sign and digits. */
  function ParseDecimal(s: string): Option<int> {
    if |s| > 1 && s[0] == '-' && AllDigits(s[1..]) then Some(-(ParseNat(s[1..]) as int))
    else if |s| > 0 && AllDigits(s) then Some(ParseNat(s))
    else None
  }

  lemma {:induction false} ParseNatDigits(n: nat)
    ensures ParseNat(NatDigits(n)) == n
  {
    if n >= 10 {
      var s := NatDigits(n);
      assert s[..|s| - 1] == NatDigits(n / 10);
      ParseNatDigits(n / 10);
    }
  }

  /** Reading back the decimal text of an integer gives the integer. */
  lemma DecimalRoundTrip(n: int)
    ensures ParseDecimal(Decimal(n)) == Some(n)
  {
    if n < 0 {
      var digits := NatDigits(-n);
      var s := "-" + digits;
      assert Decimal(n) == s;
      assert s[1..] == digits;
      assert |s| > 1 && s[0] == '-' && AllDigits(s[1..]);
      ParseNatDigits(-n);
      assert ParseDecimal(s) == Some(-(ParseNat(digits) as int));
    } else {
      var s := NatDigits(n);
      assert Decimal(n) == s;
      assert IsDigit(s[0]) && s[0] != '-';
      ParseNatDigits(n);
      assert ParseDecimal(s) == Some(ParseNat(s));
    }
  }

  /** Distinct integers print differently. */
  lemma DecimalInjective(m: int, n: int)
    requires Decimal(m) == Decimal(n)
    ensures m == n
  {
    DecimalRoundTrip(m);
    DecimalRoundTrip(n);
  }

  // ---------------------------------------------------------------------------
  // str() and repr()

  function Join(parts: seq<string>): string {
    if |parts| == 0 then ""
    else if |parts| == 1 then parts[0]
    else parts[0] + ", " + Join(parts[1..])
  }

  /** The dict's entries as Python holds them: each key once, in first-occurrence
      order, with the value of its last binding. */
  function DictItems(ms: seq<Member>): (items: seq<Member>)
    ensures |items| == |Keys(ms)|
    ensures forall i :: 0 <= i < |items| ==> items[i] in ms
  {
    var ks := Keys(ms);
    var items := seq(|ks|, i requires 0 <= i < |ks| =>
      assert HasKey(ms, ks[i]);
      (ks[i], Lookup(ms, ks[i]).value));
    assert forall i :: 0 <= i < |items| ==> items[i] in ms by {
      forall i | 0 <= i < |items|
        ensures items[i] in ms
      {
        LookupIsMember(ms, ks[i]);
      }
    }
    items
  }

  lemma LookupIsMember(ms: seq<Member>, key: string)
    requires HasKey(ms, key)
    ensures (key, Lookup(ms, key).value) in ms
  {
    LookupSpec(ms, key);
    var j :| 0 <= j < |ms| && ms[j] == (key, Lookup(ms, key).value)
             && forall j' :: j < j' < |ms| ==> ms[j'].0 != key;
    assert ms[j] in ms;
  }

  /** `repr(v)`. */
  function Repr(v: Json): string
    decreases v
  {
    match v
    case JNull => "None"
    case JBool(b) => if b then "True" else "False"
    case JInt(n) => Decimal(n)
    case JFloat(_, text) => text
    case JStr(s) => "'" + s + "'"
    case JArr(items) =>
      "[" + Join(seq(|items|, i requires 0 <= i < |items| => Repr(items[i]))) + "]"
    case JObj(ms) =>
      var entries := DictItems(ms);
      "{" + Join(seq(|entries|, i requires 0 <= i < |entries| =>
                       "'" + entries[i].0 + "': " + Repr(entries[i].1))) + "}"
  }

  /** `str(v)`, which is what an f-string interpolates: a string prints as itself,
      everything else as its `repr`. */
  function Str(v: Json): (r: string)
    ensures v.JStr? ==> r == v.s
    ensures v.JInt? ==> ParseDecimal(r) == Some(v.i)
  {
    match v
    case JStr(s) => s
    case JInt(n) => DecimalRoundTrip(n); Repr(v)
    case _ => Repr(v)
  }
}

=== FILE: registry.dfy ===
/** The static tool list the endpoint advertises for `tools/list`.  It documents the
    arguments; the fetchers do their own clamping and do not consult it. */
module Registry {
  import opened Wrappers
  import opened Json
  import opened Limit
  import opened Tools

  /** One property of a tool's input schema: its JSON type, description, optional
      numeric bounds, optional enumeration and optional default. */
  datatype Param = Param(name: string, kind: string, description: string,
                         bounds: Option<(int, int)>, choices: seq<string>, default: Option<Json>)

  datatype ToolSpec = ToolSpec(name: string, description: string, params: seq<Param>,
                               required: seq<string>)

  function Description(t: Tool): string {
    match t
    case SubredditPosts => "Get top posts from any subreddit"
    case SearchReddit => "Search all of Reddit"
    case UserPosts => "Get posts from a specific Reddit user"
  }

  function PrimaryDescription(t: Tool): string {
    match t
    case SubredditPosts => "Subreddit name (without r/)"
    case SearchReddit => "Search query string"
    case UserPosts => "Reddit username (without u/)"
  }

  function LimitDescription(t: Tool): string {
    match t
    case SearchReddit => "Number of results to return (1-25)"
    case _ => "Number of posts to return (1-25)"
  }

  function SortChoices(t: Tool): seq<string> {
    match t
    case SubredditPosts => ["hot", "new", "top", "rising"]
    case SearchReddit => ["relevance", "hot", "top", "new", "comments"]
    case UserPosts => ["new", "hot", "top", "controversial"]
  }

  function AdvertisedSortDefault(t: Tool): string {
    match t
    case SubredditPosts => "hot"
    case SearchReddit => "relevance"
    case UserPosts => "new"
  }

  /** The advertised entry for a tool.  It agrees with what the fetcher does: the
      properties are exactly the keywords the fetcher accepts, only the primary one is
      required, the limit schema states the clamp's bounds and the fetcher's default,
      and the sort default is the fetcher's default and one of the listed choices. */
  function SpecOf(t: Tool): (s: ToolSpec)
    ensures s.name == Name(t)
    ensures |s.params| == 3
    ensures s.params[0].name == PrimaryParam(t) && s.params[1].name == "limit"
            && s.params[2].name == "sort"
    ensures s.required == [PrimaryParam(t)]
    ensures s.params[1].kind == "integer" && s.params[1].bounds == Some((MinLimit, MaxLimit))
            && s.params[1].default == Some(JInt(DefaultLimit))
    ensures s.params[2].default == Some(JStr(DefaultSort(t))) && DefaultSort(t) in s.params[2].choices
  {
    ToolSpec(Name(t), Description(t),
             [Param(PrimaryParam(t), "string", PrimaryDescription(t), None, [], None),
              Param("limit", "integer", LimitDescription(t), Some((1, 25)), [], Some(JInt(10))),
              Param("sort", "string", "Sort order", None, SortChoices(t),
                    Some(JStr(AdvertisedSortDefault(t))))],
             [PrimaryParam(t)])
  }

  /** The advertised list, in advertised order. */
  const Advertised: seq<ToolSpec> := [SpecOf(SubredditPosts), SpecOf(SearchReddit), SpecOf(UserPosts)]

  /** Exactly three tools are advertised, one per tool kind in the router's order,
      and their required lists are the three primary keywords. */
  lemma RegistryCoversRouting()
    ensures |Advertised| == 3
    ensures forall i :: 0 <= i < |Advertised| ==> Advertised[i].name == Name(AllTools[i])
    ensures forall t :: t in AllTools
    ensures Advertised[0].required == ["subreddit"] && Advertised[1].required == ["query"]
            && Advertised[2].required == ["username"]
  {
    forall t
      ensures t in AllTools
    {
      match t
      case SubredditPosts => assert AllTools[0] == t;
      case SearchReddit => assert AllTools[1] == t;
      case UserPosts => assert AllTools[2] == t;
    }
  }

  /** Every advertised name routes to the tool it describes. */
  lemma AdvertisedNamesRoute(i: nat)
    requires i < |Advertised|
    ensures FromName(JStr(Advertised[i].name)) == Some(AllTools[i])
  {
    RoutingInvertsNames(AllTools[i], Advertised[i].name);
  }

  // ---------------------------------------------------------------------------
  // The advertised JSON

  function ParamJson(p: Param): Member {
    (p.name,
     JObj([("type", JStr(p.kind)), ("description", JStr(p.description))]
          + (if p.bounds.Some? then [("minimum", JInt(p.bounds.value.0)),
                                     ("maximum", JInt(p.bounds.value.1))] else [])
          + (if |p.choices| > 0
             then [("enum", JArr(seq(|p.choices|, i requires 0 <= i < |p.choices| =>
                                         JStr(p.choices[i]))))]
             else [])
          + (if p.default.Some? then [("default", p.default.value)] else [])))
  }

  function SpecJson(s: ToolSpec): Json {
    JObj([("name", JStr(s.name)),
          ("description", JStr(s.description)),
          ("inputSchema",
           JObj([("type", JStr("object")),
                 ("properties", JObj(seq(|s.params|, i requires 0 <= i < |s.params| =>
                                           ParamJson(s.params[i])))),
                 ("required", JArr(seq(|s.required|, i requires 0 <= i < |s.required| =>
                                         JStr(s.required[i]))))]))])
  }

  /** The `limit` property as advertised: integer, minimum 1, maximum 25, default 10. */
  lemma AdvertisedLimitSchema(t: Tool)
    ensures ParamJson(SpecOf(t).params[1])
              == ("limit", JObj([("type", JStr("integer")),
                                 ("description", JStr(LimitDescription(t))),
                                 ("minimum", JInt(MinLimit)),
                                 ("maximum", JInt(MaxLimit)),
                                 ("default", JInt(DefaultLimit))]))
  {
    var p := SpecOf(t).params[1];
    assert [("type", JStr(p.kind)), ("description", JStr(p.description))]
             + [("minimum", JInt(1)), ("maximum", JInt(25))] + [] + [("default", JInt(10))]
           == [("type", JStr("integer")), ("description", JStr(LimitDescription(t))),
               ("minimum", JInt(1)), ("maximum", JInt(25)), ("default", JInt(10))];
  }
}

=== FILE: tools.dfy ===
/** The three tools and the upstream request each one issues. */
module Tools {
  import opened Wrappers
  import opened Json
  import opened PyRuntime

  datatype Tool = SubredditPosts | SearchReddit | UserPosts

  const AllTools: seq<Tool> := [SubredditPosts, SearchReddit, UserPosts]

  /** The name under which the tool is advertised and called. */
  function Name(t: Tool): string {
    match t
    case SubredditPosts => "get_subreddit_posts"
    case SearchReddit => "search_reddit"
    case UserPosts => "get_user_posts"
  }

  /** The Python function the HTTP endpoint calls for the tool; exceptions raised
      while binding its arguments name it. */
  function HttpFunction(t: Tool): string {
    Name(t) + "_http"
  }

  /** The keyword naming the tool's one required argument. */
  function PrimaryParam(t: Tool): string {
    match t
    case SubredditPosts => "subreddit"
    case SearchReddit => "query"
    case UserPosts => "username"
  }

  /** The `sort` a call gets when it passes none. */
  function DefaultSort(t: Tool): string {
    match t
    case SubredditPosts => "hot"
    case SearchReddit => "relevance"
    case UserPosts => "new"
  }

  /** The tool a `tools/call` name selects, if any; only a string equal to one of the
      three names selects a tool. */
  function FromName(name: Json): (r: Option<Tool>)
    ensures r.Some? ==> name == JStr(Name(r.value))
    ensures r.None? ==> forall t :: name != JStr(Name(t))
  {
    if name == JStr(Name(SubredditPosts)) then Some(SubredditPosts)
    else if name == JStr(Name(SearchReddit)) then Some(SearchReddit)
    else if name == JStr(Name(UserPosts)) then Some(UserPosts)
    else None
  }

  /** No two tools share a name. */
  lemma NamesDistinct(t1: Tool, t2: Tool)
    requires Name(t1) == Name(t2)
    ensures t1 == t2
  {
    assert |Name(t1)| == |Name(t2)|;
  }

  /** Calling a tool by its own name selects that tool, and only the three names
      select anything. */
  lemma RoutingInvertsNames(t: Tool, name: string)
    ensures FromName(JStr(Name(t))) == Some(t)
    ensures FromName(JStr(name)).Some? <==> exists t' :: name == Name(t')
  {
    var r := FromName(JStr(Name(t)));
    NamesDistinct(r.value, t);
  }

  // ---------------------------------------------------------------------------
  // The upstream request

  const ApiBase: string := "https://www.reddit.com"
  const UserAgent: string := "Reddit-MCP-Server/1.0"
  const TimeoutSeconds: int := 10

  /** One HTTP GET: the URL, the query parameters handed to the HTTP client as a
      key/value list (their encoding into the query string is the client's), the
      `User-Agent` header and the timeout. */
  datatype HttpGet = HttpGet(url: string, params: seq<(string, Json)>, userAgent: string,
                             timeoutSeconds: int)

  /** The listing of a subreddit: under the API base, the subreddit's path, then the
      sort token as the listing's JSON document, with the count as the only query
      parameter. */
  function SubredditUrl(subreddit: string, sort: string, limit: string): string {
    ApiBase + "/r/" + subreddit + "/" + sort + ".json?limit=" + limit
  }

  /** A user's submissions: under the API base, the user's path and its `submitted`
      JSON document, with the count and then the sort token as query parameters. */
  function UserUrl(username: string, limit: string, sort: string): string {
    ApiBase + "/u/" + username + "/submitted.json?limit=" + limit + "&sort=" + sort
  }

  /** The request a tool issues once its limit is clamped.  The subreddit and user
      tools interpolate their arguments into the URL with `str()`; the search tool
      passes its arguments as query parameters. */
  function BuildRequest(t: Tool, primary: Json, limit: Json, sort: Json): (r: HttpGet)
    ensures r.userAgent == UserAgent && r.timeoutSeconds == TimeoutSeconds
    ensures t != SearchReddit <==> r.params == []
    ensures t == SearchReddit ==>
              && Lookup(r.params, "q") == Some(primary)
              && Lookup(r.params, "limit") == Some(limit)
              && Lookup(r.params, "sort") == Some(sort)
  {
    match t
    case SubredditPosts =>
      HttpGet(SubredditUrl(Str(primary), Str(sort), Str(limit)), [], UserAgent, TimeoutSeconds)
    case SearchReddit =>
      var params := [("q", primary), ("limit", limit), ("sort", sort)];
      assert DistinctKeys(params);
      LookupDistinct(params, 0);
      LookupDistinct(params, 1);
      LookupDistinct(params, 2);
      HttpGet(ApiBase + "/search.json", params, UserAgent, TimeoutSeconds)
    case UserPosts =>
      HttpGet(UserUrl(Str(primary), Str(limit), Str(sort)), [], UserAgent, TimeoutSeconds)
  }

  lemma CancelFrame(a: string, x: string, y: string, b: string)
    requires a + x + b == a + y + b
    ensures x == y
  {
    var w := a + x + b;
    assert |x| == |y|;
    assert x == w[|a|..|a| + |x|];
    assert y == (a + y + b)[|a|..|a| + |y|];
  }

  lemma CancelPrefix(a: string, x: string, y: string)
    requires a + x == a + y
    ensures x == y
  {
    assert x == (a + x)[|a|..];
    assert y == (a + y)[|a|..];
  }

  lemma SubredditUrlParts(subreddit: string, sort: string, limit: string)
    ensures SubredditUrl(subreddit, sort, limit)
              == (ApiBase + "/r/" + subreddit + "/") + sort + (".json?limit=" + limit)
    ensures SubredditUrl(subreddit, sort, limit)
              == (ApiBase + "/r/" + subreddit + "/" + sort + ".json?limit=") + limit
  {
  }

  lemma UserUrlParts(username: string, limit: string, sort: string)
    ensures UserUrl(username, limit, sort)
              == (ApiBase + "/u/" + username + "/submitted.json?limit=") + limit + ("&sort=" + sort)
    ensures UserUrl(username, limit, sort)
              == (ApiBase + "/u/" + username + "/submitted.json?limit=" + limit + "&sort=") + sort
  {
  }

  /** The sort token reaches the upstream request verbatim: two different string
      tokens always produce two different requests, so no token is replaced by a
      default. */
  lemma SortPassedVerbatim(t: Tool, primary: Json, limit: Json, s1: string, s2: string)
    ensures BuildRequest(t, primary, limit, JStr(s1)) == BuildRequest(t, primary, limit, JStr(s2))
            ==> s1 == s2
  {
    if BuildRequest(t, primary, limit, JStr(s1)) == BuildRequest(t, primary, limit, JStr(s2)) {
      match t
      case SubredditPosts =>
        var p, l := Str(primary), Str(limit);
        SubredditUrlParts(p, s1, l);
        SubredditUrlParts(p, s2, l);
        CancelFrame(ApiBase + "/r/" + p + "/", s1, s2, ".json?limit=" + l);
      case SearchReddit =>
        assert BuildRequest(t, primary, limit, JStr(s1)).params[2] == ("sort", JStr(s1));
      case UserPosts =>
        var p, l := Str(primary), Str(limit);
        UserUrlParts(p, l, s1);
        UserUrlParts(p, l, s2);
        CancelPrefix(ApiBase + "/u/" + p + "/submitted.json?limit=" + l + "&sort=", s1, s2);
    }
  }

  /** Equal texts framed the same way hold equal decimal integers. */
  lemma DecimalFrame(a: string, m: int, n: int, b: string)
    requires a + Decimal(m) + b == a + Decimal(n) + b
    ensures m == n
  {
    CancelFrame(a, Decimal(m), Decimal(n), b);
    DecimalInjective(m, n);
  }

  /** The integer limit can be read back from the request: different counts give
      different requests. */
  lemma LimitRecoverable(t: Tool, primary: Json, m: int, n: int, sort: Json)
    ensures BuildRequest(t, primary, JInt(m), sort) == BuildRequest(t, primary, JInt(n), sort) ==> m == n
  {
    if BuildRequest(t, primary, JInt(m), sort) == BuildRequest(t, primary, JInt(n), sort) {
      assert Str(JInt(m)) == Decimal(m) && Str(JInt(n)) == Decimal(n);
      match t
      case SubredditPosts =>
        var p, s := Str(primary), Str(sort);
        SubredditUrlParts(p, s, Decimal(m));
        SubredditUrlParts(p, s, Decimal(n));
        CancelPrefix(ApiBase + "/r/" + p + "/" + s + ".json?limit=", Decimal(m), Decimal(n));
        DecimalInjective(m, n);
      case SearchReddit =>
        assert BuildRequest(t, primary, JInt(m), sort).params[1] == ("limit", JInt(m));
      case UserPosts =>
        var p, s := Str(primary), Str(sort);
        UserUrlParts(p, Decimal(m), s);
        UserUrlParts(p, Decimal(n), s);
        DecimalFrame(ApiBase + "/u/" + p + "/submitted.json?limit=", m, n, "&sort=" + s);
    }
  }

  lemma UrlsOnApiHost(name: string, sort: string, limit: string)
    ensures SubredditUrl(name, sort, limit)[..|ApiBase|] == ApiBase
    ensures UserUrl(name, limit, sort)[..|ApiBase|] == ApiBase
  {
    assert SubredditUrl(name, sort, limit)
             == ApiBase + ("/r/" + name + "/" + sort + ".json?limit=" + limit);
    assert UserUrl(name, limit, sort)
             == ApiBase + ("/u/" + name + "/submitted.json?limit=" + limit + "&sort=" + sort);
  }

  /** Every request goes to the same host with the same client header and timeout. */
  lemma RequestEnvelope(t: Tool, primary: Json, limit: Json, sort: Json)
    ensures var req := BuildRequest(t, primary, limit, sort);
            && req.url[..|ApiBase|] == ApiBase
            && req.userAgent == UserAgent
            && req.timeoutSeconds == TimeoutSeconds
  {
    UrlsOnApiHost(Str(primary), Str(sort), Str(limit));
    assert (ApiBase + "/search.json")[..|ApiBase|] == ApiBase;
  }
}

=== FILE: wrappers.dfy ===
/** Failure-carrying wrappers shared by the model: `Option` for a value that may be
    absent (a missing dictionary key) and `Result` for a computation that may raise. */
module Wrappers {

  datatype Option<+T> = None | Some(value: T) {

    /** The carried value, or `default` when there is none (Python's `dict.get(k, default)`). */
    function GetOr(default: T): T {
      match this
      case Some(v) => v
      case None => default
    }
  }

  /** `Err` carries the exception a Python statement would raise. */
  datatype Result<+T, +E> = Ok(value: T) | Err(error: E) {

    predicate IsFailure() {
      Err?
    }

    function PropagateFailure<U>(): Result<U, E>
      requires Err?
    {
      Err(error)
    }

    function Extract(): T
      requires Ok?
    {
      value
    }
  }
}
